=== FILE: README.md ===
# DevConnector profile store, in Dafny

This is a model of the profile API of DevConnector (`routes/api/profile.js`).
The record shape comes from the Mongoose `profile` schema (`models/Profile.js`).
The database is a store `Db(profiles, users)`. `profiles` maps a user id to the
profile whose `user` is that id. `users` is the set of ids in the users
collection. Each route that writes is a pure function from one store to the next.
The read-only routes are lookups over the store.

Modules, leaf first:

- `Wrappers` (`wrappers.dfy`): `Option`. `None` is JavaScript's `undefined`.
- `CommaList` (`comma_list.dfy`): `split(',')`, `join(',')`, and the round trip between them.
- `JsArray` (`js_array.dfy`): `indexOf` and `splice(start, 1)` as JavaScript defines them.
  This includes a negative start, which counts back from the end of the array.
- `ProfileSchema` (`profile_schema.dfy`): `Profile`, `Experience`, `Education` and `Social`.
  It also says what `required: true` demands before `save()` stores a document,
  and how a new entry is built from a request body.
- `ProfileRoutes` (`profile_routes.dfy`) models each route:
  - field assembly;
  - create-or-update;
  - adding and removing entries;
  - account deletion;
  - the lookups;
  - the store invariant `WellFormed`.
- `ProfileFixes` (`profile_fixes.dfy`): the three defects listed under Findings.
  Each has a concrete counterexample on the code as written, plus a corrected transition.

Modelling choices:

- The body of `POST /profile` is a `map<string, string>`. A missing key is
  `undefined`. A value is truthy when it is not the empty string.
- The bodies of the experience and education routes are records of optional fields.
  Their `current` is the JSON boolean the client sends. When it is absent, the schema default `false` applies.
- Route parameters are a map. `DELETE /profile/education/:edu_id` yields `{edu_id}`.
  The handler reads `exp_id` from it, which is `undefined`.
- Entry ids are a fresh-id parameter. Dates are opaque strings.
- `save()` runs schema validation, so it stores a document only when `ValidProfile` holds.
  This applies to the create path and to the four entry routes.
  `ValidProfile` demands the schema's `required` paths (models/Profile.js:13-34): a non-empty
  handle and status, a defined `skills`, and every embedded entry valid. An experience entry
  needs non-empty title, company and from (models/Profile.js:44-72). An education entry needs
  non-empty school, degree, fieldofstudy and from (models/Profile.js:73-100).
- `findOneAndUpdate` with `$set` does not validate, so the update path writes directly.
- Adding or removing an entry for a caller who has no profile throws inside the
  callback (`null.experience` / `null.education`), so the store does not change.
- The model follows the route code wherever it departs from what the API evidently means:
  - skills are split but never trimmed;
  - a taken handle does not stop the create;
  - a missing entry id still removes an entry;
  - education removal ignores its own id.

## Model

| member | source | states |
|---|---|---|
| `ProfileSchema.OptionalPathsIgnored` | models/Profile.js:18-40 | Clearing the paths without `required` never changes whether a profile, experience entry or education entry is valid. For a profile these are company, website, location, bio, githubusername and social. For entries they are location (experience only), to, current and description. |
| `ProfileSchema.Ids` | routes/api/profile.js:277-278 | `.map(item => item.id)` keeps the length and puts each entry's id at that entry's index. |
| `ProfileRoutes.ApplySet` | routes/api/profile.js:157-163 | `$set` writes each assembled path and keeps each path it was not given. It replaces `social` whole and leaves the entry arrays alone. It runs no validation, yet a valid profile stays valid, because non-empty values cannot unset a required path. |
| `ProfileRoutes.FromFields` | routes/api/profile.js:179 | `new Profile(profileFields)` has the assembled user, handle, status and skills, and empty entry arrays. It is valid exactly when handle and status are non-empty and skills were assembled. |
| `ProfileRoutes.Save` | routes/api/profile.js:179 | `save()` stores the document under its user exactly when it passes validation. A rejected document leaves the store unchanged, and no other entry or user changes. The same save ends the four entry routes, at routes/api/profile.js:222, 261, 285 and 310. |
| `ProfileRoutes.DropExperience` | routes/api/profile.js:277-282 | With `exp_id` given, an id that occurs costs the array one entry. An id that does not occur costs it its last entry, or nothing when it is empty. |
| `ProfileRoutes.DropEducation` | routes/api/profile.js:302-307 | With no `exp_id` parameter, which is always so on `/education/:edu_id`, the last entry goes, or nothing from an empty array. |
| `ProfileRoutes.AssembleFields` | routes/api/profile.js:124-148 | `user` is the caller. Each of handle, company, website, location, bio, status and githubusername is set exactly when its body value is truthy, and then to that value. The same holds for the five social keys, which always sit in a `social` object. `skills` is set exactly when the body defines it. It then has one comma-free piece more than the string has commas. |
| `ProfileRoutes.SkillsRoundTrip` | routes/api/profile.js:138-140 | Joining the stored skills with ',' gives back the string that was sent, because no trimming happens. |
| `CommaList.Split` | routes/api/profile.js:139 | `split(',')` yields one piece more than there are commas, and no piece contains a comma. |
| `CommaList.JoinSplit` | routes/api/profile.js:139 | `join(',')` after `split(',')` is the identity on every string. |
| `CommaList.SplitJoin` | routes/api/profile.js:139 | `split(',')` after `join(',')` gives back any non-empty list of comma-free pieces. |
| `ProfileRoutes.Upsert` | routes/api/profile.js:151-183 | An existing profile is always updated. Otherwise a profile is created exactly when handle, status and skills are given, whether or not the handle error was set. The handle error is set exactly on the create path, when another profile has the requested handle. Users and every other profile are unchanged. |
| `ProfileRoutes.UpsertUpdates` | routes/api/profile.js:155-165 | `$set` overwrites each truthy scalar and keeps each other scalar. A defined `skills` is replaced by its split. `social` is rebuilt from the body alone, so a link the body omits is cleared. `experience` and `education` are untouched. |
| `ProfileRoutes.UpsertCreates` | routes/api/profile.js:166-182 | The created profile belongs to the caller, holds exactly the truthy body fields and the split skills, and starts with empty `experience` and `education`. |
| `ProfileSchema.NewExperience` | routes/api/profile.js:209-217 | A new experience entry carries the fresh id and the body's fields as sent. `current` is false when the body omits it, the schema default at models/Profile.js:64-67. The entry is valid exactly when title, company and from are non-empty, the required paths at models/Profile.js:44-72. |
| `ProfileSchema.NewEducation` | routes/api/profile.js:248-256 | A new education entry carries the fresh id and the body's fields as sent. `current` is false when the body omits it, the schema default at models/Profile.js:93-96. The entry is valid exactly when school, degree, fieldofstudy and from are non-empty, the required paths at models/Profile.js:73-100. |
| `ProfileRoutes.AddExperience` | routes/api/profile.js:205-223 | With a valid entry and profile, the entry is at index 0, the length grows by one, and the old entries follow in order. Nothing else of the profile changes. With no profile, or an entry that fails validation, the store is unchanged. |
| `ProfileRoutes.AddEducation` | routes/api/profile.js:244-262 | The same as adding experience, for `education`. |
| `JsArray.IndexOf` | routes/api/profile.js:277-279 | `indexOf` returns -1 exactly when the value is absent. Otherwise it returns the first index holding the value. |
| `JsArray.SpliceOne` | routes/api/profile.js:282 | `splice(start, 1)` removes one element whenever the array is non-empty and `start` is below its length, and it introduces no element. |
| `JsArray.SpliceOneAt` | routes/api/profile.js:282 | With a start inside the array, exactly that element goes and the others keep their order. |
| `JsArray.SpliceMinusOne` | routes/api/profile.js:282 | `splice(-1, 1)` drops the last element. An empty array stays empty. |
| `ProfileRoutes.IndexOfParam` | routes/api/profile.js:302-304 | Searching for an `undefined` route parameter always yields -1. A defined one yields -1 exactly when it is no entry's id. |
| `ProfileRoutes.RemoveExperience` | routes/api/profile.js:272-287 | A non-empty experience array always loses exactly one entry, whether or not the id occurs. The rest of the profile and the store are unchanged. With no profile, nothing changes. |
| `ProfileRoutes.RemoveExperienceFound` | routes/api/profile.js:277-282 | When the id occurs, its first occurrence is removed and the other entries keep their order. |
| `ProfileRoutes.RemoveExperienceMissing` | routes/api/profile.js:277-282 | When the id does not occur, the last entry is removed. An empty array stays empty. |
| `ProfileRoutes.RemoveEducation` | routes/api/profile.js:297-312 | A non-empty education array loses exactly one entry. The rest of the profile and the store are unchanged. With no profile, nothing changes. |
| `ProfileRoutes.RemoveEducationDropsLast` | routes/api/profile.js:302-307 | Whatever `edu_id` is, the last education entry is removed, or nothing when there is none. |
| `ProfileRoutes.AddThenRemoveExperience` | routes/api/profile.js:220-282 | Removing a just-added experience entry by its id restores the store exactly. |
| `ProfileRoutes.DeleteAccount` | routes/api/profile.js:322-329 | The caller's profile and user are gone. Every other profile and user is unchanged. |
| `ProfileRoutes.DeleteIdempotent` | routes/api/profile.js:322-328 | A second delete is a no-op. So is a delete for an id with neither a profile nor a user. |
| `ProfileRoutes.FindOne` | routes/api/profile.js:69-71 | `findOne` returns a stored profile that matches the filter. It returns nothing exactly when no stored profile matches. |
| `ProfileRoutes.FindByUser` | routes/api/profile.js:26-35 | The profile found belongs to the user. There is none exactly when no stored profile does. In a well-formed store it is the profile stored under that id. |
| `ProfileRoutes.FindByHandle` | routes/api/profile.js:69-79 | The profile found has the handle. There is none exactly when no stored profile has it. |
| `ProfileRoutes.ListProfiles` | routes/api/profile.js:49-57 | Lists exactly the stored profiles, one per stored user. An empty store gives an empty list. |
| `ProfileRoutes.HandlePreservesWellFormed` | models/Profile.js:9-34 | Every route run by an authenticated caller keeps every profile under its own user's id, attached to an existing user, and valid: handle, status and skills set, and every entry valid. |
| `ProfileFixes.SpliceFound` | routes/api/profile.js:282 | The guarded splice removes nothing for index -1, and otherwise removes exactly the element at the index. |
| `ProfileFixes.RemoveExperienceById` | routes/api/profile.js:277-282 | Corrected removal: an id that matches no entry leaves the store unchanged. Otherwise its first occurrence goes. |
| `ProfileFixes.RemoveEducationById` | routes/api/profile.js:302-307 | Corrected removal by the route's own `edu_id`: an id that matches no entry leaves the store unchanged. Otherwise its first occurrence goes. |
| `ProfileFixes.AddThenRemoveEducationById` | routes/api/profile.js:259-307 | With the correction, removing a just-added education entry by its id restores the store. |
| `ProfileFixes.UpsertChecked` | routes/api/profile.js:169-180 | Corrected create-or-update: when the handle error is set, nothing is stored. Otherwise it behaves as the route does. |
| `ProfileFixes.UpsertCheckedKeepsHandlesUnique` | routes/api/profile.js:169-180 | Creating a profile through the corrected route never gives two profiles the same handle. |
| `ProfileFixes.HandleCorrectedPreservesWellFormed` | models/Profile.js:9-34 | The corrected routes keep the store well formed. |
| `ProfileFixes.MissingExperienceIdDropsLast` | routes/api/profile.js:277-282 | Take experience [x1, x2] and delete id "nope". The route leaves [x1]. The corrected route leaves the store unchanged. |
| `ProfileFixes.EducationRemovalIgnoresId` | routes/api/profile.js:302-307 | Take education [e1, e2] and delete "e1". The route leaves [e1]. The corrected route leaves [e2]. |
| `ProfileFixes.DuplicateHandleSaved` | routes/api/profile.js:172-179 | "alice" holds handle "dev". When "bob" posts handle "dev", the error is set and a second "dev" profile is stored anyway. The corrected route stores nothing. |

## Left out

- HTTP plumbing is left out: Express routing, Passport's JWT check, status codes and response bodies. This includes the responses sent twice after a missing `return` (routes/api/profile.js:118-121, 173-180, 200-203, 239-242). The model keeps only the store change, plus whether the handle error was set.
- Authentication is assumed. `HandlePreservesWellFormed` assumes the caller is an existing user, which is what the JWT strategy guarantees. That strategy is not part of this model.
- `validateProfileInput`, `validateExperienceInput` and `validateEducationInput` are not part of this model. Their result never gates a write in the route code, so no gate is modelled.
- The `populate` joins with the users collection are foreign Mongoose calls and are not modelled. They only change the response, never the store.
- The `!profiles` check in the list-all route is not modelled, because an array is never falsy.
- The `max: 40` on `handle` is not modelled. It does not bound string length in Mongoose.
- The `date` default (`Date.now()` evaluated once at load) is not modelled. Neither are clocks, the profile's own `_id`, or id generation; new entry ids arrive as a parameter.
- Mongoose casting of dates and booleans is left out. Dates are stored as sent, and `current` arrives as a boolean. Profile body values other than strings are not modelled.
- Check-then-act races between the lookups and the writes are concurrency concerns and are not modelled. So are persistence failures and the `catch` branches.
- The handle lookup on create with an undefined handle is not modelled. Mongoose's treatment of an undefined filter value cannot change the store there, because the save then fails validation.
- The update path's lack of any handle-uniqueness check is modelled as written. `UpsertCheckedKeepsHandlesUnique` covers only the create path.
- `ProfileRoutes.FindByHandle`: when several profiles share a handle, which one is returned is not pinned down, because the store's natural order is not modelled.
- `ProfileRoutes.ListProfiles`: the order of the list is not pinned down, for the same reason.
- `ProfileRoutes.FindOne`: it states only that the result matches, not which match comes first in the store.
- `ProfileSchema.ValidProfile`: the `required` on the `skills` array follows the Mongoose 4 rule, under which an unset or empty array fails validation. Mongoose gives every array path a default of `[]`, and Mongoose 5 and later accept an empty array for a required path. The Mongoose version in use is not part of this model.
- `ProfileRoutes.Upsert`: because of that rule, the create path stores nothing when the body has no `skills` key. Under Mongoose 5 and later the route would create a profile from handle and status alone, with `skills` empty.

## Findings

| source | as written | input that shows it | evidently intended | confidence | as-written member | corrected member |
|---|---|---|---|---|---|---|
| routes/api/profile.js:277-282 | `splice(indexOf(id), 1)` with no check for -1 | experience [x1, x2], DELETE /profile/experience/nope leaves [x1] | an id that matches no entry removes nothing | high; not executed | `ProfileFixes.MissingExperienceIdDropsLast` | `ProfileFixes.RemoveExperienceById` |
| routes/api/profile.js:302-307 | reads `request.params.exp_id` on `/education/:edu_id`, which is always undefined | education [e1, e2], DELETE /profile/education/e1 leaves [e1] | look up `edu_id` and remove that entry | high; not executed | `ProfileFixes.EducationRemovalIgnoresId` | `ProfileFixes.RemoveEducationById` |
| routes/api/profile.js:172-179 | sets the 'That handle already exists' error but has no `return`, so the save still runs | "alice" has handle "dev"; "bob" posts handle "dev", status and skills; two profiles now hold "dev" | stop after the error and store nothing | high; not executed | `ProfileFixes.DuplicateHandleSaved` | `ProfileFixes.UpsertChecked` |

`ProfileFixes.HandleCorrected` is the route dispatcher with all three corrections in place. `HandleCorrectedPreservesWellFormed` shows that it keeps the store invariant.

=== FILE: comma_list.dfy ===
/** The comma-separated skills field: `String.prototype.split(',')` and its
    inverse `Array.prototype.join(',')`. Pieces are never trimmed. */
module CommaList {

  /** How many times `c` occurs in `s`. */
  function Occurrences(s: string, c: char): nat
  {
    if |s| == 0 then 0 else (if s[0] == c then 1 else 0) + Occurrences(s[1..], c)
  }

  /** `s.split(',')`: the runs of `s` between commas, kept as they are, so
      "" splits into [""] and "a, b" into ["a", " b"]. */
  function Split(s: string): (pieces: seq<string>)
    ensures |pieces| == Occurrences(s, ',') + 1
    ensures forall i :: 0 <= i < |pieces| ==> ',' !in pieces[i]
    decreases |s|
  {
    if |s| == 0 then [""]
    else
      var rest := Split(s[1..]);
      if s[0] == ',' then [""] + rest
      else [[s[0]] + rest[0]] + rest[1..]
  }

  /** `pieces.join(',')`. */
  function Join(pieces: seq<string>): string
    requires |pieces| >= 1
    decreases |pieces|
  {
    if |pieces| == 1 then pieces[0] else pieces[0] + "," + Join(pieces[1..])
  }

  /** Putting a character in front of the first piece puts it in front of the joined string. */
  lemma {:induction false} JoinConsHead(c: char, pieces: seq<string>)
    requires |pieces| >= 1
    ensures Join([[c] + pieces[0]] + pieces[1..]) == [c] + Join(pieces)
  {
  }

  /** Joining the pieces with ',' gives back the string that was split. */
  lemma {:induction false} JoinSplit(s: string)
    ensures Join(Split(s)) == s
    decreases |s|
  {
    if |s| > 0 {
      var rest := Split(s[1..]);
      JoinSplit(s[1..]);
      assert s == [s[0]] + s[1..];
      if s[0] == ',' {
        assert ([""] + rest)[1..] == rest;
      } else {
        JoinConsHead(s[0], rest);
      }
    }
  }

  /** A string without commas is a single piece. */
  lemma {:induction false} SplitCommaFree(s: string)
    requires ',' !in s
    ensures Split(s) == [s]
    decreases |s|
  {
    if |s| > 0 {
      assert ',' !in s[1..] by {
        forall k | 0 <= k < |s[1..]| ensures s[1..][k] != ',' {
          assert s[1..][k] == s[k + 1];
        }
      }
      SplitCommaFree(s[1..]);
      assert [s[0]] + s[1..] == s;
    }
  }

  /** A comma-free prefix followed by a comma is split off as one piece. */
  lemma {:induction false} SplitAfterPiece(a: string, t: string)
    requires ',' !in a
    ensures Split(a + "," + t) == [a] + Split(t)
    decreases |a|
  {
    if |a| == 0 {
      assert a + "," + t == [','] + t;
      assert (a + "," + t)[1..] == t;
    } else {
      assert ',' !in a[1..] by {
        forall k | 0 <= k < |a[1..]| ensures a[1..][k] != ',' {
          assert a[1..][k] == a[k + 1];
        }
      }
      SplitAfterPiece(a[1..], t);
      var s := a + "," + t;
      assert s[0] == a[0];
      assert s[1..] == a[1..] + "," + t;
      assert [a[0]] + a[1..] == a;
    }
  }

  /** Splitting the join of comma-free pieces gives the pieces back. */
  lemma {:induction false} SplitJoin(pieces: seq<string>)
    requires |pieces| >= 1
    requires forall i :: 0 <= i < |pieces| ==> ',' !in pieces[i]
    ensures Split(Join(pieces)) == pieces
    decreases |pieces|
  {
    if |pieces| == 1 {
      SplitCommaFree(pieces[0]);
    } else {
      SplitJoin(pieces[1..]);
      SplitAfterPiece(pieces[0], Join(pieces[1..]));
      assert [pieces[0]] + pieces[1..] == pieces;
    }
  }
}

=== FILE: js_array.dfy ===
/** The two array primitives the removal routes rely on, with JavaScript's
    meaning: `indexOf` (strict equality, -1 when absent) and `splice(start, 1)`. */
module JsArray {

  /** `xs.indexOf(x)`: the first index holding `x`, or -1. */
  function IndexOf<T(==)>(xs: seq<T>, x: T): (r: int)
    ensures -1 <= r < |xs|
    ensures r == -1 <==> x !in xs
    ensures 0 <= r ==> xs[r] == x
    ensures forall j :: 0 <= j < r ==> xs[j] != x
    decreases |xs|
  {
    if |xs| == 0 then -1
    else if xs[0] == x then 0
    else
      var k := IndexOf(xs[1..], x);
      if k < 0 then -1 else k + 1
  }

  /** Where `splice` starts on an array of length `len`: a negative start
      counts back from the end and stops at 0; a start past the end is the end. */
  function SpliceStart(len: nat, start: int): nat
  {
    if start < 0 then (if len + start < 0 then 0 else len + start)
    else if start > len then len
    else start
  }

  /** What `xs` holds after `xs.splice(start, 1)`: one element fewer whenever
      the resolved start is inside the array, and only elements of `xs`. */
  function SpliceOne<T>(xs: seq<T>, start: int): (r: seq<T>)
    ensures |r| == (if 0 < |xs| && start < |xs| then |xs| - 1 else |xs|)
    ensures forall x :: x in r ==> x in xs
  {
    var k := SpliceStart(|xs|, start);
    if k < |xs| then xs[..k] + xs[k + 1..] else xs
  }

  /** With a start inside the array, exactly the element at that index goes
      and the others keep their order. */
  lemma SpliceOneAt<T>(xs: seq<T>, i: int)
    requires 0 <= i < |xs|
    ensures SpliceOne(xs, i) == xs[..i] + xs[i + 1..]
    ensures multiset(SpliceOne(xs, i)) + multiset{xs[i]} == multiset(xs)
  {
    assert xs == xs[..i] + [xs[i]] + xs[i + 1..];
  }

  /** `splice(-1, 1)` drops the last element, and leaves an empty array empty. */
  lemma SpliceMinusOne<T>(xs: seq<T>)
    ensures SpliceOne(xs, -1) == (if |xs| == 0 then xs else xs[..|xs| - 1])
  {
  }
}

=== FILE: profile_fixes.dfy ===
/** Three places where `routes/api/profile.js` does not do what it evidently
    means to, each shown on a concrete store, next to the corrected
    transition and the property the correction restores. */
module ProfileFixes {
  import opened Wrappers
  import opened ProfileSchema
  import opened ProfileRoutes
  import JsArray

  /** `splice` guarded by `if (removeIndex >= 0)`: an index of -1 removes nothing. */
  function SpliceFound<T>(es: seq<T>, i: int): (r: seq<T>)
    requires i < |es|
    ensures i < 0 ==> r == es
    ensures 0 <= i ==> r == es[..i] + es[i + 1..]
    ensures forall x :: x in r ==> x in es
  {
    if i < 0 then es else JsArray.SpliceOneAt(es, i); JsArray.SpliceOne(es, i)
  }

  /** Experience removal as intended: the first entry with the id goes, and
      an id that matches no entry changes nothing. */
  function RemoveExperienceById(db: Db, caller: UserId, expId: SubId): (r: Db)
    ensures r.users == db.users
    ensures r.profiles - {caller} == db.profiles - {caller}
    ensures caller !in db.profiles ==> r == db
    ensures caller in db.profiles ==> caller in r.profiles
    ensures caller in db.profiles && expId !in ExperienceIds(db.profiles[caller].experience) ==> r == db
    ensures caller in db.profiles && ValidProfile(db.profiles[caller])
            && expId in ExperienceIds(db.profiles[caller].experience) ==>
      var es := db.profiles[caller].experience;
      var i := JsArray.IndexOf(ExperienceIds(es), expId);
      var q := r.profiles[caller];
      && es[i].id == expId
      && q.experience == es[..i] + es[i + 1..]
      && q == db.profiles[caller].(experience := q.experience)
  {
    if caller !in db.profiles then db
    else
      var p := db.profiles[caller];
      var i := JsArray.IndexOf(ExperienceIds(p.experience), expId);
      Save(db, caller, p.(experience := SpliceFound(p.experience, i)))
  }

  /** Education removal as intended: it looks up the route's own `edu_id`. */
  function RemoveEducationById(db: Db, caller: UserId, eduId: SubId): (r: Db)
    ensures r.users == db.users
    ensures r.profiles - {caller} == db.profiles - {caller}
    ensures caller !in db.profiles ==> r == db
    ensures caller in db.profiles ==> caller in r.profiles
    ensures caller in db.profiles && eduId !in EducationIds(db.profiles[caller].education) ==> r == db
    ensures caller in db.profiles && ValidProfile(db.profiles[caller])
            && eduId in EducationIds(db.profiles[caller].education) ==>
      var es := db.profiles[caller].education;
      var i := JsArray.IndexOf(EducationIds(es), eduId);
      var q := r.profiles[caller];
      && es[i].id == eduId
      && q.education == es[..i] + es[i + 1..]
      && q == db.profiles[caller].(education := q.education)
  {
    if caller !in db.profiles then db
    else
      var p := db.profiles[caller];
      var params := map["edu_id" := eduId];
      var i := IndexOfParam(EducationIds(p.education), Lookup(params, "edu_id"));
      Save(db, caller, p.(education := SpliceFound(p.education, i)))
  }

  /** The id of the front entry is found at index 0, so that entry goes. */
  lemma SpliceFoundFront(e: Education, es: seq<Education>)
    ensures JsArray.IndexOf(EducationIds([e] + es), e.id) == 0
    ensures SpliceFound([e] + es, 0) == es
  {
  }

  /** Removing the education entry just added, by its id, restores the store. */
  lemma AddThenRemoveEducationById(db: Db, caller: UserId, b: EducationBody, id: SubId)
    requires caller in db.profiles && ValidProfile(db.profiles[caller])
    requires ValidEducation(NewEducation(b, id))
    ensures RemoveEducationById(AddEducation(db, caller, b, id), caller, id) == db
  {
    var p := db.profiles[caller];
    var e := NewEducation(b, id);
    var p1 := p.(education := [e] + p.education);
    assert ValidProfile(p1);
    var mid := db.(profiles := db.profiles[caller := p1]);
    assert AddEducation(db, caller, b, id) == mid;
    SpliceFoundFront(e, p.education);
    assert p1.(education := SpliceFound(p1.education, 0)) == p;
    assert RemoveEducationById(mid, caller, id) == Save(mid, caller, p);
    assert mid.profiles[caller := p] == db.profiles;
  }

  /** No two stored profiles share a handle. */
  predicate HandlesUnique(profiles: map<UserId, Profile>)
  {
    forall u, v :: u in profiles && v in profiles && u != v ==> profiles[u].handle != profiles[v].handle
  }

  /** POST /profile with the `return` the conflict branch lacks: a taken
      handle on the create path leaves the store as it was. */
  function UpsertChecked(db: Db, caller: UserId, body: Body): (r: UpsertReply)
    ensures r.db.users == db.users
    ensures r.db.profiles - {caller} == db.profiles - {caller}
    ensures caller in db.profiles ==> r == Upsert(db, caller, body)
    ensures r.handleTaken == Upsert(db, caller, body).handleTaken
    ensures r.handleTaken ==> r.db == db
    ensures caller !in db.profiles && !r.handleTaken ==> r == Upsert(db, caller, body)
  {
    if caller in db.profiles then Upsert(db, caller, body)
    else
      var f := AssembleFields(caller, body);
      if HandleTaken(db.profiles, f.handle) then UpsertReply(db, true)
      else UpsertReply(Save(db, caller, FromFields(f)), false)
  }

  /** Creating a profile through the corrected route never duplicates a handle. */
  lemma UpsertCheckedKeepsHandlesUnique(db: Db, caller: UserId, body: Body)
    requires caller !in db.profiles
    requires HandlesUnique(db.profiles)
    ensures HandlesUnique(UpsertChecked(db, caller, body).db.profiles)
  {
  }

  /** The routes with the three corrections in place. */
  function HandleCorrected(db: Db, caller: UserId, req: Request): Db
  {
    match req
    case PostProfile(body) => UpsertChecked(db, caller, body).db
    case DeleteExperience(id) => RemoveExperienceById(db, caller, id)
    case DeleteEducation(id) => RemoveEducationById(db, caller, id)
    case _ => Handle(db, caller, req)
  }

  /** The corrected routes keep the store well formed, as the routes as written do. */
  lemma HandleCorrectedPreservesWellFormed(db: Db, caller: UserId, req: Request)
    requires WellFormed(db)
    requires caller in db.users
    ensures WellFormed(HandleCorrected(db, caller, req))
  {
  }

  const Acme := Experience("x1", Some("Engineer"), Some("Acme"), None, Some("2020-01-01"), None, false, None)
  const Initech := Experience("x2", Some("Intern"), Some("Initech"), None, Some("2018-06-01"), None, false, None)
  const Mit := Education("e1", Some("MIT"), Some("BSc"), Some("CS"), Some("2010-09-01"), None, false, None)
  const Ucl := Education("e2", Some("UCL"), Some("MSc"), Some("CS"), Some("2014-09-01"), None, false, None)
  const NoLinks := Social(None, None, None, None, None)

  /** A valid profile for `u` with the given handle and entries. */
  function Sample(u: UserId, handle: string, es: seq<Experience>, eds: seq<Education>): (p: Profile)
    requires handle != ""
    requires forall e :: e in es ==> ValidExperience(e)
    requires forall e :: e in eds ==> ValidEducation(e)
    ensures ValidProfile(p)
  {
    Profile(u, Some(handle), None, None, None, Some("Developer"), Some(["node"]), None, None, es, eds, NoLinks)
  }

  /** As written: deleting an experience id that matches nothing still
      removes the last entry, while the corrected route leaves it. */
  lemma MissingExperienceIdDropsLast()
    ensures var db := Db(map["u" := Sample("u", "dev", [Acme, Initech], [])], {"u"});
            && RemoveExperience(db, "u", "nope").profiles["u"].experience == [Acme]
            && RemoveExperienceById(db, "u", "nope") == db
  {
  }

  /** As written: deleting education "e1" removes "e2", the last entry, and
      keeps "e1"; the corrected route removes "e1". */
  lemma EducationRemovalIgnoresId()
    ensures var db := Db(map["u" := Sample("u", "dev", [], [Mit, Ucl])], {"u"});
            && RemoveEducation(db, "u", "e1").profiles["u"].education == [Mit]
            && RemoveEducationById(db, "u", "e1").profiles["u"].education == [Ucl]
  {
  }

  /** As written: a second user who asks for a taken handle gets the error
      and a saved profile with that handle anyway; the corrected route
      stores nothing. */
  lemma DuplicateHandleSaved()
    ensures var db := Db(map["alice" := Sample("alice", "dev", [], [])], {"alice", "bob"});
            var body := map["handle" := "dev", "status" := "Student", "skills" := "c,go"];
            var r := Upsert(db, "bob", body);
            && HandlesUnique(db.profiles)
            && r.handleTaken
            && !HandlesUnique(r.db.profiles)
            && UpsertChecked(db, "bob", body).db == db
  {
    var db := Db(map["alice" := Sample("alice", "dev", [], [])], {"alice", "bob"});
    var body := map["handle" := "dev", "status" := "Student", "skills" := "c,go"];
    assert db.profiles["alice"].handle == Some("dev");
    var r := Upsert(db, "bob", body);
    assert "bob" in r.db.profiles;
    assert r.db.profiles["bob"].handle == Some("dev");
    assert r.db.profiles["alice"] == db.profiles["alice"];
  }
}

=== FILE: profile_routes.dfy ===
/** The effect of each `api/profile` route on the profile store, as a pure
    transition from one store to the next. The store maps a user id to the
    profile whose `user` is that id; the users collection is a set of ids. */
module ProfileRoutes {
  import opened Wrappers
  import opened ProfileSchema
  import CommaList
  import JsArray

  /** A form body: the string each key carries; a key it lacks is `undefined`. */
  type Body = map<string, string>

  /** The named parameters Express parses out of a route's path. */
  type Params = map<string, string>

  datatype Db = Db(profiles: map<UserId, Profile>, users: set<UserId>)

  /** Every stored profile sits under its own user's id, passed validation
      when it was saved, and refers to an existing user. */
  predicate WellFormed(db: Db)
  {
    && (forall u :: u in db.profiles ==> db.profiles[u].user == u && ValidProfile(db.profiles[u]))
    && db.profiles.Keys <= db.users
  }

  /** JavaScript truthiness of `body[key]`: defined and not the empty string. */
  predicate Truthy(body: Body, key: string)
  {
    key in body && body[key] != ""
  }

  function Pick(body: Body, key: string): Option<string>
  {
    if Truthy(body, key) then Some(body[key]) else None
  }

  /** `v` is what `if (body.key) fields.key = body.key` leaves: set exactly
      when the body's value is truthy, and then to that value. */
  predicate Keeps(v: Option<string>, body: Body, key: string)
  {
    && (v.Some? <==> Truthy(body, key))
    && (v.Some? ==> v.value == body[key])
  }

  /** The value `$set` leaves at a scalar path: the body's value when it was
      truthy, the stored one otherwise. */
  predicate SetOrKept(now: Option<string>, before: Option<string>, body: Body, key: string)
  {
    if Truthy(body, key) then now == Some(body[key]) else now == before
  }

  /** `profileFields`: the partial profile the POST route assembles. */
  datatype Fields = Fields(
    user: UserId,
    handle: Option<string>,
    company: Option<string>,
    website: Option<string>,
    location: Option<string>,
    bio: Option<string>,
    status: Option<string>,
    githubusername: Option<string>,
    skills: Option<seq<string>>,
    social: Social)

  /** The partial profile built from a body: the caller as `user`, each
      truthy scalar and social key verbatim, and `skills` split on commas
      whenever the body defines it, even as the empty string. */
  function AssembleFields(caller: UserId, body: Body): (f: Fields)
    ensures f.user == caller
    ensures Keeps(f.handle, body, "handle") && Keeps(f.company, body, "company")
    ensures Keeps(f.website, body, "website") && Keeps(f.location, body, "location")
    ensures Keeps(f.bio, body, "bio") && Keeps(f.status, body, "status")
    ensures Keeps(f.githubusername, body, "githubusername")
    ensures f.skills.Some? <==> "skills" in body
    ensures f.skills.Some? ==> |f.skills.value| == CommaList.Occurrences(body["skills"], ',') + 1
    ensures f.skills.Some? ==> forall i :: 0 <= i < |f.skills.value| ==> ',' !in f.skills.value[i]
    ensures Keeps(f.social.youtube, body, "youtube") && Keeps(f.social.twitter, body, "twitter")
    ensures Keeps(f.social.facebook, body, "facebook") && Keeps(f.social.linkedin, body, "linkedin")
    ensures Keeps(f.social.instagram, body, "instagram")
  {
    Fields(
      caller,
      Pick(body, "handle"), Pick(body, "company"), Pick(body, "website"), Pick(body, "location"),
      Pick(body, "bio"), Pick(body, "status"), Pick(body, "githubusername"),
      if "skills" in body then Some(CommaList.Split(body["skills"])) else None,
      Social(Pick(body, "youtube"), Pick(body, "twitter"), Pick(body, "facebook"),
             Pick(body, "linkedin"), Pick(body, "instagram")))
  }

  /** The stored skills join back, with ',', into the string that was sent. */
  lemma SkillsRoundTrip(caller: UserId, body: Body)
    requires "skills" in body
    ensures AssembleFields(caller, body).skills.Some?
    ensures CommaList.Join(AssembleFields(caller, body).skills.value) == body["skills"]
  {
    CommaList.JoinSplit(body["skills"]);
  }

  function Override<T>(now: Option<T>, before: Option<T>): Option<T>
  {
    if now.Some? then now else before
  }

  /** `findOneAndUpdate(..., {$set: fields})`: each assembled path written,
      every other path kept, `social` replaced as one object, the entry
      arrays left alone. It runs no validation, yet a valid profile stays
      valid, since `$set` never unsets a path. */
  function ApplySet(p: Profile, f: Fields): (q: Profile)
    ensures q.user == f.user
    ensures f.handle.Some? ==> q.handle == f.handle
    ensures f.handle.None? ==> q.handle == p.handle
    ensures f.status.Some? ==> q.status == f.status
    ensures f.status.None? ==> q.status == p.status
    ensures f.skills.Some? ==> q.skills == f.skills
    ensures f.skills.None? ==> q.skills == p.skills
    ensures f.company.Some? ==> q.company == f.company
    ensures f.company.None? ==> q.company == p.company
    ensures f.website.Some? ==> q.website == f.website
    ensures f.website.None? ==> q.website == p.website
    ensures f.location.Some? ==> q.location == f.location
    ensures f.location.None? ==> q.location == p.location
    ensures f.bio.Some? ==> q.bio == f.bio
    ensures f.bio.None? ==> q.bio == p.bio
    ensures f.githubusername.Some? ==> q.githubusername == f.githubusername
    ensures f.githubusername.None? ==> q.githubusername == p.githubusername
    ensures q.social == f.social
    ensures q.experience == p.experience && q.education == p.education
    ensures ValidProfile(p) && (f.handle.Some? ==> f.handle.value != "") && (f.status.Some? ==> f.status.value != "")
            ==> ValidProfile(q)
  {
    p.(user := f.user,
       handle := Override(f.handle, p.handle),
       company := Override(f.company, p.company),
       website := Override(f.website, p.website),
       location := Override(f.location, p.location),
       bio := Override(f.bio, p.bio),
       status := Override(f.status, p.status),
       githubusername := Override(f.githubusername, p.githubusername),
       skills := Override(f.skills, p.skills),
       social := f.social)
  }

  /** `new Profile(fields)`: paths the fields lack stay unset, arrays start
      empty, and the document is valid exactly when handle, status and
      skills were assembled. */
  function FromFields(f: Fields): (p: Profile)
    ensures p.user == f.user && p.handle == f.handle && p.status == f.status && p.skills == f.skills
    ensures p.experience == [] && p.education == []
    ensures ValidProfile(p) <==> Required(f.handle) && Required(f.status) && f.skills.Some?
  {
    Profile(f.user, f.handle, f.company, f.website, f.location, f.status, f.skills,
            f.bio, f.githubusername, [], [], f.social)
  }

  /** `doc.save()` for the document found under `u`: validation runs first,
      and a document it rejects leaves the store as it was. */
  function Save(db: Db, u: UserId, p: Profile): (r: Db)
    ensures r.users == db.users
    ensures r.profiles - {u} == db.profiles - {u}
    ensures ValidProfile(p) ==> u in r.profiles && r.profiles[u] == p
    ensures !ValidProfile(p) ==> r == db
  {
    if ValidProfile(p) then db.(profiles := db.profiles[u := p]) else db
  }

  /** Some stored profile already has this handle. `Upsert` asks only on
      the create path, where the caller has no profile of their own. */
  predicate HandleTaken(profiles: map<UserId, Profile>, handle: Option<string>)
  {
    handle.Some? && exists u :: u in profiles && profiles[u].handle == handle
  }

  /** The new store, and whether the 'That handle already exists' error was set. */
  datatype UpsertReply = UpsertReply(db: Db, handleTaken: bool)

  /** POST /profile. An existing profile is updated in place; otherwise a new
      one is saved when handle, status and skills are all given, whether or
      not the handle check set its error. No other entry changes. */
  function Upsert(db: Db, caller: UserId, body: Body): (r: UpsertReply)
    ensures r.db.users == db.users
    ensures r.db.profiles - {caller} == db.profiles - {caller}
    ensures caller in db.profiles ==> caller in r.db.profiles
    ensures caller !in db.profiles ==>
      (caller in r.db.profiles <==> Truthy(body, "handle") && Truthy(body, "status") && "skills" in body)
    ensures r.handleTaken <==>
      && caller !in db.profiles
      && Truthy(body, "handle")
      && exists u :: u in db.profiles && db.profiles[u].handle == Some(body["handle"])
  {
    var f := AssembleFields(caller, body);
    if caller in db.profiles then
      UpsertReply(db.(profiles := db.profiles[caller := ApplySet(db.profiles[caller], f)]), false)
    else
      UpsertReply(Save(db, caller, FromFields(f)), HandleTaken(db.profiles, f.handle))
  }

  /** Update path: every truthy scalar overwrites, every other scalar keeps
      its stored value, a defined `skills` is replaced by its split, `social`
      is rebuilt from the body alone, and the entry arrays are untouched. */
  lemma UpsertUpdates(db: Db, caller: UserId, body: Body)
    requires caller in db.profiles
    ensures var p := db.profiles[caller];
            var q := Upsert(db, caller, body).db.profiles[caller];
            && q.user == caller
            && SetOrKept(q.handle, p.handle, body, "handle")
            && SetOrKept(q.company, p.company, body, "company")
            && SetOrKept(q.website, p.website, body, "website")
            && SetOrKept(q.location, p.location, body, "location")
            && SetOrKept(q.bio, p.bio, body, "bio")
            && SetOrKept(q.status, p.status, body, "status")
            && SetOrKept(q.githubusername, p.githubusername, body, "githubusername")
            && q.skills == (if "skills" in body then Some(CommaList.Split(body["skills"])) else p.skills)
            && Keeps(q.social.youtube, body, "youtube") && Keeps(q.social.twitter, body, "twitter")
            && Keeps(q.social.facebook, body, "facebook") && Keeps(q.social.linkedin, body, "linkedin")
            && Keeps(q.social.instagram, body, "instagram")
            && q.experience == p.experience
            && q.education == p.education
  {
  }

  /** Create path: the new profile belongs to the caller, holds exactly the
      truthy fields of the body, and starts with no entries. */
  lemma UpsertCreates(db: Db, caller: UserId, body: Body)
    requires caller !in db.profiles
    requires Truthy(body, "handle") && Truthy(body, "status") && "skills" in body
    ensures var r := Upsert(db, caller, body).db;
            caller in r.profiles &&
            var q := r.profiles[caller];
            && q.user == caller
            && q.handle == Some(body["handle"]) && q.status == Some(body["status"])
            && Keeps(q.company, body, "company") && Keeps(q.website, body, "website")
            && Keeps(q.location, body, "location") && Keeps(q.bio, body, "bio")
            && Keeps(q.githubusername, body, "githubusername")
            && q.skills == Some(CommaList.Split(body["skills"]))
            && Keeps(q.social.youtube, body, "youtube") && Keeps(q.social.twitter, body, "twitter")
            && Keeps(q.social.facebook, body, "facebook") && Keeps(q.social.linkedin, body, "linkedin")
            && Keeps(q.social.instagram, body, "instagram")
            && q.experience == []
            && q.education == []
  {
  }

  /** POST /profile/experience. The new entry goes to the front of the
      caller's experience; with no profile the callback throws and nothing
      is stored, and an entry that fails validation makes `save()` reject. */
  function AddExperience(db: Db, caller: UserId, b: ExperienceBody, id: SubId): (r: Db)
    ensures r.users == db.users
    ensures r.profiles - {caller} == db.profiles - {caller}
    ensures caller !in db.profiles || !ValidExperience(NewExperience(b, id)) ==> r == db
    ensures caller in db.profiles ==> caller in r.profiles
    ensures caller in db.profiles && ValidProfile(db.profiles[caller]) && ValidExperience(NewExperience(b, id)) ==>
      var p := db.profiles[caller];
      var q := r.profiles[caller];
      && |q.experience| == |p.experience| + 1
      && q.experience[0] == NewExperience(b, id)
      && q.experience[1..] == p.experience
      && q == p.(experience := q.experience)
  {
    if caller !in db.profiles then db
    else
      var p := db.profiles[caller];
      Save(db, caller, p.(experience := [NewExperience(b, id)] + p.experience))
  }

  /** POST /profile/education, the same shape as `AddExperience`. */
  function AddEducation(db: Db, caller: UserId, b: EducationBody, id: SubId): (r: Db)
    ensures r.users == db.users
    ensures r.profiles - {caller} == db.profiles - {caller}
    ensures caller !in db.profiles || !ValidEducation(NewEducation(b, id)) ==> r == db
    ensures caller in db.profiles ==> caller in r.profiles
    ensures caller in db.profiles && ValidProfile(db.profiles[caller]) && ValidEducation(NewEducation(b, id)) ==>
      var p := db.profiles[caller];
      var q := r.profiles[caller];
      && |q.education| == |p.education| + 1
      && q.education[0] == NewEducation(b, id)
      && q.education[1..] == p.education
      && q == p.(education := q.education)
  {
    if caller !in db.profiles then db
    else
      var p := db.profiles[caller];
      Save(db, caller, p.(education := [NewEducation(b, id)] + p.education))
  }

  /** `ids.indexOf(param)` where the parameter may be `undefined`, which
      equals no string id. */
  function IndexOfParam(ids: seq<SubId>, param: Option<string>): (i: int)
    ensures param.None? ==> i == -1
    ensures param.Some? ==> (i == -1 <==> param.value !in ids)
    ensures -1 <= i < |ids|
  {
    match param
    case None => -1
    case Some(x) => JsArray.IndexOf(ids, x)
  }

  function Lookup(params: Params, key: string): Option<string>
  {
    if key in params then Some(params[key]) else None
  }

  /** The experience array after DELETE /profile/experience/:exp_id: one
      entry fewer when the id occurs, and the last entry gone when it does not. */
  function DropExperience(es: seq<Experience>, params: Params): (r: seq<Experience>)
    ensures "exp_id" in params && params["exp_id"] in ExperienceIds(es) ==> |r| == |es| - 1
    ensures "exp_id" in params && params["exp_id"] !in ExperienceIds(es) ==>
      r == (if |es| == 0 then es else es[..|es| - 1])
  {
    JsArray.SpliceOne(es, IndexOfParam(ExperienceIds(es), Lookup(params, "exp_id")))
  }

  /** The education array after DELETE /profile/education/:edu_id: the
      handler reads `exp_id`, a parameter this path does not have. */
  function DropEducation(es: seq<Education>, params: Params): (r: seq<Education>)
    ensures "exp_id" !in params ==> r == (if |es| == 0 then es else es[..|es| - 1])
  {
    JsArray.SpliceOne(es, IndexOfParam(EducationIds(es), Lookup(params, "exp_id")))
  }

  /** DELETE /profile/experience/:exp_id. Whether or not the id occurs, a
      non-empty experience array loses exactly one entry; nothing else of
      the profile or the store changes. */
  function RemoveExperience(db: Db, caller: UserId, expId: SubId): (r: Db)
    ensures r.users == db.users
    ensures r.profiles - {caller} == db.profiles - {caller}
    ensures caller !in db.profiles ==> r == db
    ensures caller in db.profiles ==> caller in r.profiles
    ensures caller in db.profiles && ValidProfile(db.profiles[caller]) ==>
      var p := db.profiles[caller];
      var q := r.profiles[caller];
      && |q.experience| == (if |p.experience| == 0 then 0 else |p.experience| - 1)
      && q == p.(experience := q.experience)
  {
    if caller !in db.profiles then db
    else
      var p := db.profiles[caller];
      Save(db, caller, p.(experience := DropExperience(p.experience, map["exp_id" := expId])))
  }

  /** DELETE /profile/education/:edu_id, which drops one entry from a
      non-empty education array and changes nothing else. */
  function RemoveEducation(db: Db, caller: UserId, eduId: SubId): (r: Db)
    ensures r.users == db.users
    ensures r.profiles - {caller} == db.profiles - {caller}
    ensures caller !in db.profiles ==> r == db
    ensures caller in db.profiles ==> caller in r.profiles
    ensures caller in db.profiles && ValidProfile(db.profiles[caller]) ==>
      var p := db.profiles[caller];
      var q := r.profiles[caller];
      && |q.education| == (if |p.education| == 0 then 0 else |p.education| - 1)
      && q == p.(education := q.education)
  {
    if caller !in db.profiles then db
    else
      var p := db.profiles[caller];
      Save(db, caller, p.(education := DropEducation(p.education, map["edu_id" := eduId])))
  }

  /** A removal whose id occurs takes out its first occurrence and keeps the
      order of the rest. */
  lemma RemoveExperienceFound(db: Db, caller: UserId, expId: SubId)
    requires caller in db.profiles && ValidProfile(db.profiles[caller])
    requires expId in ExperienceIds(db.profiles[caller].experience)
    ensures var es := db.profiles[caller].experience;
            var i := JsArray.IndexOf(ExperienceIds(es), expId);
            && 0 <= i < |es|
            && es[i].id == expId
            && (forall j :: 0 <= j < i ==> es[j].id != expId)
            && RemoveExperience(db, caller, expId).profiles[caller].experience == es[..i] + es[i + 1..]
  {
  }

  /** A removal whose id does not occur gets -1 from `indexOf`, and
      `splice(-1, 1)` drops the last entry. */
  lemma RemoveExperienceMissing(db: Db, caller: UserId, expId: SubId)
    requires caller in db.profiles && ValidProfile(db.profiles[caller])
    requires expId !in ExperienceIds(db.profiles[caller].experience)
    ensures var es := db.profiles[caller].experience;
            RemoveExperience(db, caller, expId).profiles[caller].experience ==
              (if |es| == 0 then es else es[..|es| - 1])
  {
  }

  /** Education removal never looks at its id: it always drops the last
      entry, or nothing from an empty array. */
  lemma RemoveEducationDropsLast(db: Db, caller: UserId, eduId: SubId)
    requires caller in db.profiles && ValidProfile(db.profiles[caller])
    ensures var es := db.profiles[caller].education;
            RemoveEducation(db, caller, eduId).profiles[caller].education ==
              (if |es| == 0 then es else es[..|es| - 1])
  {
  }

  /** The id of the front entry is found at index 0, so that entry goes. */
  lemma DropExperienceFront(e: Experience, es: seq<Experience>)
    ensures DropExperience([e] + es, map["exp_id" := e.id]) == es
  {
  }

  /** Removing the experience entry just added, by its id, restores the store. */
  lemma AddThenRemoveExperience(db: Db, caller: UserId, b: ExperienceBody, id: SubId)
    requires caller in db.profiles && ValidProfile(db.profiles[caller])
    requires ValidExperience(NewExperience(b, id))
    ensures RemoveExperience(AddExperience(db, caller, b, id), caller, id) == db
  {
    var p := db.profiles[caller];
    var e := NewExperience(b, id);
    var p1 := p.(experience := [e] + p.experience);
    assert ValidProfile(p1);
    var mid := db.(profiles := db.profiles[caller := p1]);
    assert AddExperience(db, caller, b, id) == mid;
    DropExperienceFront(e, p.experience);
    assert p1.(experience := DropExperience(p1.experience, map["exp_id" := id])) == p;
    assert RemoveExperience(mid, caller, id) == Save(mid, caller, p);
    assert mid.profiles[caller := p] == db.profiles;
  }

  /** DELETE /profile: the caller's profile goes, then the caller's user;
      every other profile and user stays. */
  function DeleteAccount(db: Db, caller: UserId): (r: Db)
    ensures caller !in r.profiles && caller !in r.users
    ensures r.profiles.Keys == db.profiles.Keys - {caller}
    ensures forall u :: u in r.profiles ==> r.profiles[u] == db.profiles[u]
    ensures r.users == db.users - {caller}
  {
    var withoutProfile := db.(profiles := db.profiles - {caller});
    withoutProfile.(users := withoutProfile.users - {caller})
  }

  /** A second delete changes nothing, and neither does one for an absent id. */
  lemma DeleteIdempotent(db: Db, caller: UserId)
    ensures DeleteAccount(DeleteAccount(db, caller), caller) == DeleteAccount(db, caller)
    ensures caller !in db.profiles && caller !in db.users ==> DeleteAccount(db, caller) == db
  {
  }

  /** `Profile.findOne(filter)`: some stored profile the filter matches, or
      none when no stored profile matches. Which match comes first is the
      store's choice. */
  method FindOne(db: Db, matches: Profile -> bool) returns (r: Option<Profile>)
    ensures r.Some? ==> r.value in db.profiles.Values && matches(r.value)
    ensures r.None? <==> forall u :: u in db.profiles ==> !matches(db.profiles[u])
  {
    var pending := db.profiles.Keys;
    while pending != {}
      invariant pending <= db.profiles.Keys
      invariant forall u :: u in db.profiles && u !in pending ==> !matches(db.profiles[u])
      decreases pending
    {
      var u :| u in pending;
      if matches(db.profiles[u]) {
        return Some(db.profiles[u]);
      }
      pending := pending - {u};
    }
    return None;
  }

  /** GET /profile and GET /profile/user/:user_id. In a well-formed store the
      profile found is the one stored under that id. */
  method FindByUser(db: Db, u: UserId) returns (r: Option<Profile>)
    ensures r.Some? ==> r.value in db.profiles.Values && r.value.user == u
    ensures r.None? <==> forall k :: k in db.profiles ==> db.profiles[k].user != u
    ensures WellFormed(db) ==> r == (if u in db.profiles then Some(db.profiles[u]) else None)
  {
    r := FindOne(db, (p: Profile) => p.user == u);
  }

  /** GET /profile/handle/:handle. */
  method FindByHandle(db: Db, handle: string) returns (r: Option<Profile>)
    ensures r.Some? ==> r.value in db.profiles.Values && r.value.handle == Some(handle)
    ensures r.None? <==> forall k :: k in db.profiles ==> db.profiles[k].handle != Some(handle)
  {
    r := FindOne(db, (p: Profile) => p.handle == Some(handle));
  }

  /** GET /profile/all: every stored profile, one per stored user; an empty
      store gives an empty list. */
  method ListProfiles(db: Db) returns (ps: seq<Profile>)
    ensures |ps| == |db.profiles|
    ensures forall p :: p in ps <==> p in db.profiles.Values
  {
    ps := [];
    var pending := db.profiles.Keys;
    while pending != {}
      invariant pending <= db.profiles.Keys
      invariant |ps| + |pending| == |db.profiles.Keys|
      invariant forall p :: p in ps ==> p in db.profiles.Values
      invariant forall u :: u in db.profiles && u !in pending ==> db.profiles[u] in ps
      decreases pending
    {
      var u :| u in pending;
      ps := ps + [db.profiles[u]];
      pending := pending - {u};
    }
  }

  /** The routes that change the store, with what each takes beyond the caller. */
  datatype Request =
    | PostProfile(body: Body)
    | PostExperience(experience: ExperienceBody, newId: SubId)
    | PostEducation(education: EducationBody, newId: SubId)
    | DeleteExperience(expId: SubId)
    | DeleteEducation(eduId: SubId)
    | DeleteProfile

  function Handle(db: Db, caller: UserId, req: Request): Db
  {
    match req
    case PostProfile(body) => Upsert(db, caller, body).db
    case PostExperience(b, id) => AddExperience(db, caller, b, id)
    case PostEducation(b, id) => AddEducation(db, caller, b, id)
    case DeleteExperience(id) => RemoveExperience(db, caller, id)
    case DeleteEducation(id) => RemoveEducation(db, caller, id)
    case DeleteProfile => DeleteAccount(db, caller)
  }

  /** Every route run by an authenticated caller keeps the store well formed:
      profiles stay keyed by their user, valid, and attached to a user. */
  lemma HandlePreservesWellFormed(db: Db, caller: UserId, req: Request)
    requires WellFormed(db)
    requires caller in db.users
    ensures WellFormed(Handle(db, caller, req))
  {
  }
}

=== FILE: profile_schema.dfy ===
/** The `profile` document: its fields, its embedded `experience` and
    `education` entries and its `social` links, and what the schema's
    `required: true` asks of a document before `save()` stores it. */
module ProfileSchema {
  import opened Wrappers

  /** The id of a document in the users collection. */
  type UserId = string

  /** The id Mongoose gives an embedded experience or education entry. */
  type SubId = string

  /** A date as the request supplied it; only its presence matters here. */
  type Date = string

  /** Five optional links, nested under `social` in the stored document. */
  datatype Social = Social(
    youtube: Option<string>,
    twitter: Option<string>,
    facebook: Option<string>,
    linkedin: Option<string>,
    instagram: Option<string>)

  datatype Experience = Experience(
    id: SubId,
    title: Option<string>,
    company: Option<string>,
    location: Option<string>,
    from: Option<Date>,
    to: Option<Date>,
    current: bool,
    description: Option<string>)

  datatype Education = Education(
    id: SubId,
    school: Option<string>,
    degree: Option<string>,
    fieldofstudy: Option<string>,
    from: Option<Date>,
    to: Option<Date>,
    current: bool,
    description: Option<string>)

  /** A profile document. `user` refers to a document of the users
      collection; `experience` and `education` are newest first. */
  datatype Profile = Profile(
    user: UserId,
    handle: Option<string>,
    company: Option<string>,
    website: Option<string>,
    location: Option<string>,
    status: Option<string>,
    skills: Option<seq<string>>,
    bio: Option<string>,
    githubusername: Option<string>,
    experience: seq<Experience>,
    education: seq<Education>,
    social: Social)

  /** A `required: true` string path: set, and not the empty string. */
  predicate Required(v: Option<string>)
  {
    v.Some? && v.value != ""
  }

  /** An experience entry passes validation only with its `required` paths
      title, company and from set; location, to, current and description
      play no part. */
  predicate ValidExperience(e: Experience)
  {
    Required(e.title) && Required(e.company) && Required(e.from)
  }

  /** An education entry passes validation only with school, degree,
      fieldofstudy and from set; to, current and description play no part. */
  predicate ValidEducation(e: Education)
  {
    Required(e.school) && Required(e.degree) && Required(e.fieldofstudy) && Required(e.from)
  }

  /** What validation on `save()` accepts: handle, status and skills set,
      and every embedded entry valid. The optional paths play no part. */
  predicate ValidProfile(p: Profile)
  {
    && Required(p.handle)
    && Required(p.status)
    && p.skills.Some?
    && (forall e :: e in p.experience ==> ValidExperience(e))
    && (forall e :: e in p.education ==> ValidEducation(e))
  }

  /** The paths the schema does not mark `required` never decide validity. */
  lemma OptionalPathsIgnored(p: Profile, e: Experience, d: Education)
    ensures ValidProfile(p) == ValidProfile(p.(company := None, website := None, location := None,
                                               bio := None, githubusername := None,
                                               social := Social(None, None, None, None, None)))
    ensures ValidExperience(e) == ValidExperience(e.(location := None, to := None, current := false, description := None))
    ensures ValidEducation(d) == ValidEducation(d.(to := None, current := false, description := None))
  {
  }

  /** The request fields a new experience entry is copied from. `None` is a
      key the body lacks; `current` is the JSON boolean the client sent. */
  datatype ExperienceBody = ExperienceBody(
    title: Option<string>,
    company: Option<string>,
    location: Option<string>,
    from: Option<Date>,
    to: Option<Date>,
    current: Option<bool>,
    description: Option<string>)

  datatype EducationBody = EducationBody(
    school: Option<string>,
    degree: Option<string>,
    fieldofstudy: Option<string>,
    from: Option<Date>,
    to: Option<Date>,
    current: Option<bool>,
    description: Option<string>)

  /** The entry `unshift` inserts: the body's fields as sent, the new id,
      and `current` false unless the body says otherwise. */
  function NewExperience(b: ExperienceBody, id: SubId): (e: Experience)
    ensures e.id == id
    ensures b.current.None? ==> !e.current
    ensures b.current.Some? ==> e.current == b.current.value
    ensures e.title == b.title && e.company == b.company && e.location == b.location
    ensures e.from == b.from && e.to == b.to && e.description == b.description
    ensures ValidExperience(e) <==> Required(b.title) && Required(b.company) && Required(b.from)
  {
    Experience(id, b.title, b.company, b.location, b.from, b.to, b.current.GetOr(false), b.description)
  }

  function NewEducation(b: EducationBody, id: SubId): (e: Education)
    ensures e.id == id
    ensures b.current.None? ==> !e.current
    ensures b.current.Some? ==> e.current == b.current.value
    ensures e.school == b.school && e.degree == b.degree && e.fieldofstudy == b.fieldofstudy
    ensures e.from == b.from && e.to == b.to && e.description == b.description
    ensures ValidEducation(e) <==>
      Required(b.school) && Required(b.degree) && Required(b.fieldofstudy) && Required(b.from)
  {
    Education(id, b.school, b.degree, b.fieldofstudy, b.from, b.to, b.current.GetOr(false), b.description)
  }

  /** Entry ids in array order, as `.map(item => item.id)` lists them. */
  function Ids<T>(es: seq<T>, id: T -> SubId): (ids: seq<SubId>)
    ensures |ids| == |es|
    ensures forall i :: 0 <= i < |es| ==> ids[i] == id(es[i])
  {
    seq(|es|, i requires 0 <= i < |es| => id(es[i]))
  }

  function ExperienceIds(es: seq<Experience>): seq<SubId>
  {
    Ids(es, (e: Experience) => e.id)
  }

  function EducationIds(es: seq<Education>): seq<SubId>
  {
    Ids(es, (e: Education) => e.id)
  }
}

=== FILE: wrappers.dfy ===
/** Optional values. `None` stands for a JavaScript `undefined`: a key a
    request body lacks, or a document path that was never set. */
module Wrappers {

  datatype Option<+T> = None | Some(value: T) {

    /** The value, or `default` when there is none (a schema default). */
    function GetOr(default: T): T {
      match this
      case Some(v) => v
      case None => default
    }
  }
}
